=== FILE: README.md ===
# Ben-Or consensus node

A Dafny model of one node of a simulated Ben-Or style binary consensus
network (`src/nodes/node.ts`). Each node keeps a state of its own (`killed`,
its current value `x`, the `decided` flag and its round `k`) and two round
ledgers (`roundRMessages`, `roundPMessages`) that map a round number to the
votes received for that round. A node reacts to votes one at a time:

- **Phase R**: the vote is appended to the round's R list. Once that list
  holds `N - F` votes, the node broadcasts a phase-P vote for the same round.
  It carries 0 on a strict majority (`> N/2`) of 0s, else 1 on a strict
  majority of 1s, else `"?"`.
- **Phase P**: the vote is appended to the round's P list. Once that list
  holds `N - F` votes, the node decides 0 if there are at least `F + 1` zeros,
  else decides 1 if there are at least `F + 1` ones. Otherwise it moves to
  round `k + 1` with the more frequent bit (ties go to 1), or with a coin flip
  when no 0 or 1 was seen. It then broadcasts that bit as its phase-R vote for
  the new round.

A faulty or stopped node rejects every vote and changes nothing. The `/start`,
`/stop` and `/getState` handlers reset, kill and inspect the node.

Layout:

- `votes.dfy`, module `Votes`: vote values, messages, and the threshold
  evaluator `countValues` (a loop, `CountValues`). Its counts are specified by
  `Count` and tied to multiset multiplicity.
- `ledger.dfy`, module `Ledger`: `processMessage` on a round ledger.
- `consensus.dfy`, module `Consensus`: the node's transitions as pure
  functions (`Deliver`, `Start`, `Stop`, `Inspect`) and lemmas about one step.
- `runs.dfy`, module `Runs`: sequences of deliveries, and the invariants that
  hold across them. It also holds the unanimous-quorum scenarios (4 nodes and
  no faults; 10 nodes with 4 silent faulty ones), and runs from a new node
  that show where the code departs from the textbook protocol.
- `node.dfy`, module `NodeServer`: class `Node`. Its fields are updated in
  place by the handlers, and each handler is proved to match its pure
  transition.

Broadcasts are appended to the field `outbox`. One entry stands for the same
vote posted to all `N` nodes. `Math.random() > 0.5` is the parameter
`randomAboveHalf`. HTTP status is the boolean `accepted` (200 or 500).

## Model

| member | source | states |
|---|---|---|
| Votes.Count | src/nodes/node.ts:139-152 | the number of votes equal to a value never exceeds the number of votes |
| Votes.CountIsMultiplicity | src/nodes/node.ts:139-152 | the count of a value equals its multiplicity in the multiset of the votes |
| Votes.CountValues | src/nodes/node.ts:139-152 | the counting loop returns exactly the number of 0s and the number of 1s; the empty list gives (0, 0) |
| Votes.CountAppend | src/nodes/node.ts:139-152 | the counts of a concatenation are the sums of the counts of its parts, so a list's counts grow by exactly the vote appended |
| Votes.CountPartition | src/nodes/node.ts:143-149 | every vote is counted as a 0, a 1, or neither, so the three counts add up to the list length |
| Votes.CountsWithinLength | src/nodes/node.ts:139-151 | count0 + count1 <= list length, with the difference being the votes that are neither 0 nor 1 |
| Votes.MajoritiesExclusive | src/nodes/node.ts:50-54 | among at most N votes, 0 and 1 cannot both have a strict majority of N |
| Votes.MajoritiesOverlapBeyondN | src/nodes/node.ts:132-137 | a ledger list has no per-sender check, so with more than N votes both values can pass the majority test |
| Votes.CountUniform | src/nodes/node.ts:143-149 | a list of identical votes counts that value once per vote and every other value zero times |
| Ledger.ProcessMessage | src/nodes/node.ts:132-137 | the returned list is the round's old list followed by the vote, and it is what the ledger now stores for that round; the old list is `Ledger.Entry`, which is empty for a round never seen (`get(k) ?? []`, line 133) |
| Ledger.ProcessMessageFrame | src/nodes/node.ts:132-137 | the round key is added, the round's list grows by one with its earlier entries in place, every other round is unchanged, and the old ledger is a prefix-wise extension |
| Consensus.Init | src/nodes/node.ts:27-35 | a new node is live, undecided, in round 1, holds its initial value and has empty ledgers |
| Consensus.PhaseRValue | src/nodes/node.ts:49-54 | the phase-P value is 0 exactly on a strict majority of 0s, 1 exactly on no 0-majority and a 1-majority, "?" exactly on neither |
| Consensus.PhaseRValueSymmetric | src/nodes/node.ts:49-54 | with at most N votes, the phase-P value is 0 iff 0 has a majority and 1 iff 1 has a majority |
| Consensus.AdvanceValue | src/nodes/node.ts:66-67 | the new value is always 0 or 1; with some 0/1 votes it is 0 iff count0 > count1 (ties give 1); with none it is 0 iff the coin is above one half |
| Consensus.Deliver | src/nodes/node.ts:42-77 | the `/message` handler as one step: a vote is accepted iff the node is neither faulty nor killed; a rejected vote or one tagged neither R nor P changes nothing and sends nothing; at most one broadcast per vote. It is built from `OnPhaseR`, `OnPhaseP` and `PhasePQuorum` and the thresholds `Consensus.AtQuorum` (list length `>= N - F`, lines 47 and 59), `Votes.Majority` (`> N/2`, lines 50 and 52) and `Consensus.Decides` (`>= F + 1`, lines 61 and 63); its branches are stated by `RejectedIffFaultyOrKilled`, `VoteRecorded`, `BelowQuorumOnlyLedger`, `PhaseRAtQuorum`, `PhasePDecidesZero`, `PhasePDecidesOne` and `PhasePAdvances` |
| Consensus.OnPhaseR | src/nodes/node.ts:45-56 | an accepted phase-R vote changes only the R ledger, is answered with success and broadcasts at most once |
| Consensus.OnPhaseP | src/nodes/node.ts:57-71 | an accepted phase-P vote leaves the R ledger and liveness alone, appends to the P ledger, and either keeps value and decided flag or leaves a binary value |
| Consensus.PhasePQuorum | src/nodes/node.ts:59-70 | at a phase-P quorum the value becomes 0 or 1, the node is decided iff it already was or a count reached F+1, and ledgers and liveness are kept |
| Consensus.Start | src/nodes/node.ts:87-95 | a non-faulty node resets decided, x := initial value, k := 1 and broadcasts (R, 1, initial value); a faulty one changes nothing and sends nothing; both succeed |
| Consensus.Stop | src/nodes/node.ts:97-100 | the node is killed and nothing else changes |
| Consensus.Inspect | src/nodes/node.ts:102-110 | a faulty node reports x, k and decided as null (and only a faulty one does); a non-faulty node reports its real fields; killed is always real |
| Consensus.DeliverLedgers | src/nodes/node.ts:44-58 | an accepted R (P) vote runs processMessage on the R (P) ledger, and every other ledger is kept |
| Consensus.RejectedIffFaultyOrKilled | src/nodes/node.ts:44-76 | a vote is rejected (500) iff the node is faulty or killed, and a rejected vote changes nothing and sends nothing |
| Consensus.OtherPhaseIgnored | src/nodes/node.ts:45-73 | a vote tagged neither R nor P changes nothing, sends nothing, and still gets success from a live non-faulty node |
| Consensus.VoteRecorded | src/nodes/node.ts:45-58 | an accepted vote is appended to its own phase's list for its round, and the other phase's ledger is untouched |
| Consensus.BelowQuorumOnlyLedger | src/nodes/node.ts:47-59 | below the N-F quorum, x, k, decided and killed stay the same and nothing is broadcast |
| Consensus.PhaseRAtQuorum | src/nodes/node.ts:45-56 | at a phase-R quorum, exactly one phase-P vote for the same round is sent (0 on a 0-majority, else 1 on a 1-majority, else "?"), and only the R ledger changes; this repeats on every later vote of the round |
| Consensus.PhasePDecidesZero | src/nodes/node.ts:59-62 | at a phase-P quorum with at least F+1 zeros: x = 0, decided, k unchanged, nothing sent |
| Consensus.PhasePDecidesOne | src/nodes/node.ts:59-64 | at a phase-P quorum with fewer than F+1 zeros and at least F+1 ones: x = 1, decided, k unchanged, nothing sent |
| Consensus.PhasePAdvances | src/nodes/node.ts:59-70 | at a phase-P quorum below both thresholds: k = vote's round + 1, decided kept, x in {0,1} by majority with ties to 1 or by the coin, and exactly one (R, k+1, x) is sent |
| Consensus.AtMostOneBroadcast | src/nodes/node.ts:42-77 | one vote causes at most one broadcast, and only an accepted vote causes one |
| Consensus.DeliverExtendsLedgers | src/nodes/node.ts:132-137 | after any vote, every round's list in both ledgers begins with its previous contents |
| Consensus.DecidedIsBinaryPreservedByControl | src/nodes/node.ts:87-100 | start and stop keep "decided implies x is 0 or 1" |
| Consensus.DecidedIsBinaryPreserved | src/nodes/node.ts:57-70 | a vote keeps "decided implies x is 0 or 1" |
| Consensus.StopIdempotentAndFinal | src/nodes/node.ts:97-100 | stopping twice is stopping once, and a stopped node rejects every vote without changing state |
| Consensus.StartIgnoresKilled | src/nodes/node.ts:87-95 | start does not look at killed: a stopped non-faulty node is reset and broadcasts, and stays stopped |
| Consensus.FaultyReportMasked | src/nodes/node.ts:102-110 | a faulty node's report does not depend on its value, round or decided flag |
| Runs.RunExtendsLedgers | src/nodes/node.ts:132-137 | across any sequence of votes, every round's list in both ledgers only grows at its end |
| Runs.RunKeepsDecidedBinary | src/nodes/node.ts:57-70 | across any sequence of votes, a decided node holds 0 or 1 |
| Runs.RejectingNodeIsInert | src/nodes/node.ts:44 | a faulty or stopped node stays exactly as it is and sends nothing, whatever votes arrive |
| Runs.RunBroadcastBound | src/nodes/node.ts:42-77 | a run sends at most one broadcast per vote, and a stopped node stays stopped |
| Runs.UnanimousPhaseR | src/nodes/node.ts:47-55 | when all votes of a round are the same bit b and 2(N-F) > N, the phase-R quorum sends (P, k, b) |
| Runs.UnanimousPhaseP | src/nodes/node.ts:59-64 | when all votes of a round are the same bit b and N-F >= F+1, the phase-P quorum decides b without changing the round or sending anything |
| Runs.RunBelowQuorum | src/nodes/node.ts:47-59 | fewer identical votes than the quorum only append to their round's list: nothing is sent and x, k, decided and killed stay |
| Runs.UnanimousPhaseRRun | src/nodes/node.ts:45-56 | from an empty round, N-F phase-R votes of the same bit b (with 2(N-F) > N) send exactly (P, k, b) and change only the R ledger |
| Runs.UnanimousPhasePRun | src/nodes/node.ts:57-64 | from an empty round, N-F phase-P votes of the same bit b (with N-F >= F+1) decide b, keep the round and send nothing |
| Runs.UnanimousRound | src/nodes/node.ts:42-71 | a whole unanimous round from empty ledgers: exactly one broadcast, (P, k, b), then decided on b in the same round |
| Runs.FourNodesAllOne | src/nodes/node.ts:42-71 | a new node with N = 4, F = 0 that receives the four round-1 R votes 1 and then the four P votes 1 sends only (P, 1, 1) and ends decided on 1 in round 1 |
| Runs.TenNodesFourSilent | src/nodes/node.ts:42-71 | a new node with N = 10, F = 4 that receives the six correct round-1 R votes 1 and then six P votes 1 sends only (P, 1, 1) and ends decided on 1 in round 1 |
| Runs.RoundCanMoveBack | src/nodes/node.ts:68 | the new round comes from the vote: a new node with N = 1, F = 0 receiving the phase-P votes "?" for rounds 1, 2, 1 (coin above one half) moves to round 2, then 3, then back to 2 |
| Runs.DecidedValueCanChange | src/nodes/node.ts:57-64 | the phase-P handler does not check decided: a new node with N = 3, F = 1 receiving the round-1 phase-P votes 1, 1, 0, 0 is decided on 1 after two and three votes and decided on 0 after four |
| Runs.ZeroVoteKeepsOne | src/nodes/node.ts:57-64 | one 0 vote into a phase-P list at quorum with at least F+1 ones and at most F zeros after it leaves the node decided on 1, and the vote is appended |
| Runs.RunKeepsDecidingOne | src/nodes/node.ts:57-64 | while the zeros stay at or below F, any number of further 0 votes into a list at quorum with F+1 ones keeps the node decided on 1 and appends every vote |
| Runs.DecisionFlipsWithinNVotes | src/nodes/node.ts:57-64 | a new node with N = 10, F = 4 receiving round-1 phase-P votes five 1s then four 0s is decided on 1, and the tenth vote, a 0, flips it to decided on 0 with exactly N votes in the list |
| Runs.ZeroDecisionSticks | src/nodes/node.ts:59-62 | once a round's phase-P list at quorum holds F+1 zeros, any further phase-P vote of that round, whatever its value or the coin, leaves the node decided on 0 |
| Runs.ZeroDecisionSticksRun | src/nodes/node.ts:59-62 | from a node decided on 0 whose list at quorum holds F+1 zeros, every run of phase-P votes for that round keeps it decided on 0: within a round 0 never flips back |
| Runs.ZeroFirstNoFlip | src/nodes/node.ts:59-64 | with N = 3, F = 1, the phase-P votes 0, 0, 1, 1 (F+1 of each value at quorum) leave a new node decided on 0: the order of the votes decides whether a flip happens |
| NodeServer.Node.constructor | src/nodes/node.ts:27-35 | a new node holds its parameters, the initial state and an empty outbox |
| NodeServer.Node.SendAll | src/nodes/node.ts:119-130 | a broadcast appends exactly one (phase, round, value) entry to the outbox |
| NodeServer.Node.SetNodeState | src/nodes/node.ts:37-40 | sets x and decided to the given values |
| NodeServer.Node.HandleMessage | src/nodes/node.ts:42-77 | the in-place handler leaves the node in the state Deliver gives, appends exactly Deliver's broadcasts, and returns its success flag |
| NodeServer.Node.HandlePhaseR | src/nodes/node.ts:45-56 | the in-place phase-R branch matches OnPhaseR, counting with the CountValues loop |
| NodeServer.Node.HandlePhaseP | src/nodes/node.ts:57-71 | the in-place phase-P branch matches OnPhaseP |
| NodeServer.Node.DecideOrAdvance | src/nodes/node.ts:59-70 | the in-place decide-or-advance step matches PhasePQuorum |
| NodeServer.Node.Start | src/nodes/node.ts:87-95 | the in-place start handler matches Start |
| NodeServer.Node.Stop | src/nodes/node.ts:97-100 | the in-place stop handler matches Stop |
| NodeServer.Node.GetState | src/nodes/node.ts:102-110 | the report equals Inspect: null x, k and decided for a faulty node, real fields otherwise |

### Where the code and the protocol description differ

The model follows the code in each of these places. Lemmas exhibit the
differences.

- The round is not monotone. The advance step sets `k` to the vote's round
  plus one, not to the node's own round plus one. A late quorum for an old
  round moves the node back (`Runs.RoundCanMoveBack`).
- A decided value is not final. The phase-P handler never reads `decided`, and
  its quorum check fires again on every later vote of the round. Because 0 is
  tested before 1 and a round's counts only grow, a flip within one round
  always goes from 1 to 0. A decision on 1 flips to 0 when the list, already
  at quorum with F + 1 ones, later gathers F + 1 zeros (2F + 2 votes in all).
  A decision on 0 never flips back within its round: once the list at quorum
  holds F + 1 zeros, every later vote of the round decides 0 again
  (`Runs.ZeroDecisionSticks`, `Runs.ZeroDecisionSticksRun`), so the list
  0, 0, 1, 1 with N = 3 and F = 1 ends decided on 0 (`Runs.ZeroFirstNoFlip`).
  Nothing bounds the list by N here, and 2F + 2 votes fit within N whenever
  N >= 2F + 2. With N = 10 and F = 4, the round-1 phase-P votes 1, 1, 1, 1, 1,
  0, 0, 0, 0 leave a node decided on 1, and the tenth vote, a 0, leaves it
  decided on 0 with exactly N votes in the list
  (`Runs.DecisionFlipsWithinNVotes`). With N = 3 and F = 1 the list 1, 1, 0
  decides 1 and one more 0 decides 0 (`Runs.DecidedValueCanChange`). A later
  round's quorum can overwrite `x` in either direction. What does hold is that
  a decided node's value is always 0 or 1 (`Runs.RunKeepsDecidedBinary`).
- The majority tests can both pass. 0 and 1 cannot both have a strict majority
  of N among at most N votes. A ledger list accepts every vote with no
  per-sender check, though, and quorum checks re-fire and re-broadcast, so a
  list can exceed N votes. There both tests can pass, and 0 wins by the order
  of the tests (`Votes.MajoritiesOverlapBeyondN`).
- `/start` does not check `killed`. A stopped node can be reset and broadcast,
  but it keeps rejecting votes.
- A vote whose phase tag is neither R nor P is answered with success and
  ignored. It is not rejected.

## Left out

- HTTP routing, JSON bodies and status plumbing (`express`, `node.listen`, `setNodeIsReady`, src/nodes/node.ts:24-25 and 113-116): I/O; a handler's status is the boolean `accepted`.
- The `/status` route (src/nodes/node.ts:79-85): a health probe that reads only the faulty flag and changes no state.
- `sendAllMessage`'s network `fetch` calls (src/nodes/node.ts:119-130): one broadcast is one outbox entry; delivery, failure of a post and waiting on the posts are not modelled.
- `Math.random()` (src/nodes/node.ts:67): floating-point randomness; the coin is the parameter `randomAboveHalf`, so every outcome of the coin is covered but no probability is.
- Asynchronous interleaving of handlers at `await` points: each vote is one atomic step.
- Vote payloads other than 0, 1 and "?": folded into `Undecided`, which the counter treats the same way. The round in a vote is taken to be an unbounded integer; JavaScript's `k + 1` (src/nodes/node.ts:68) is a floating-point sum that loses precision past 2^53, which is not modelled. JavaScript arithmetic on a non-numeric round is not modelled.
- `N` and `F` are natural numbers, and `count > N/2` is the integer comparison `2 * count > N`, which gives the same answer as the floating-point division for integer counts.
- NodeServer.Node.GetState: does not write `null` into `x`, `k` and `decided` of a faulty node as the source does. The report is the same. A faulty node never reads those fields again, because it rejects votes and skips `/start`, so the write cannot be observed.
- Consensus.Inspect: as a pure function it returns the report and leaves the state as it was, so the same `null` write is left out, for the same reason.
- Votes.MajoritiesExclusive: stated only for lists of at most `N` votes, weaker than an unconditional exclusion, because the unconditional claim is false for longer lists (`Votes.MajoritiesOverlapBeyondN`).
- src/start.ts: a driver that chooses faulty flags and initial values and calls network launch code, which is not part of this model.
- Network-wide properties (agreement, validity, probabilistic termination): they need a model of many nodes, message delivery and probability, beyond this per-node code.

=== FILE: consensus.dfy ===
/**
 The per-node Ben-Or state machine as pure transitions: what one vote,
 `start`, `stop` and `getState` do to a node's state, what they broadcast
 and whether they report success.
 */
module Consensus {
  import opened Votes
  import opened Ledger

  datatype Option<T> = None | Some(value: T)

  /** What a node is created with and never changes: the network size `N`,
      the number of faulty nodes `F`, the initial value, the faulty flag. */
  datatype Config = Config(N: nat, F: nat, initialValue: Value, isFaulty: bool)

  /** The mutable part of a node: `nodeState` and the two round ledgers. */
  datatype NodeState = NodeState(
    killed: bool,
    x: Value,
    decided: bool,
    k: int,
    roundR: Rounds,
    roundP: Rounds)

  /** Result of one operation: the next state, the broadcasts it issued in
      order, and whether it reported success (200) or failure (500). */
  datatype Step = Step(next: NodeState, sent: seq<Message>, accepted: bool)

  /** The state a node is created in. */
  function Init(c: Config): (s: NodeState)
    ensures !s.killed && !s.decided && s.k == 1 && s.x == c.initialValue
    ensures forall j :: Entry(s.roundR, j) == [] && Entry(s.roundP, j) == []
  {
    NodeState(false, c.initialValue, false, 1, map[], map[])
  }

  /** The quorum: a round is acted upon once its list holds `N - F` votes. */
  predicate AtQuorum(c: Config, votes: seq<Value>) {
    |votes| >= c.N - c.F
  }

  /** The decide threshold `F + 1`. */
  predicate Decides(c: Config, count: nat) {
    count >= c.F + 1
  }

  /** The phase-P value a node sends after a phase-R quorum: 0 on a strict
      majority of 0s, else 1 on a strict majority of 1s, else "?". */
  function PhaseRValue(n: int, zeros: nat, ones: nat): (v: Value)
    ensures v == Zero <==> Majority(n, zeros)
    ensures v == One <==> !Majority(n, zeros) && Majority(n, ones)
    ensures v == Undecided <==> !Majority(n, zeros) && !Majority(n, ones)
  {
    if Majority(n, zeros) then Zero
    else if Majority(n, ones) then One
    else Undecided
  }

  /** When a round's list holds at most `n` votes, the phase-P value is
      symmetric in 0 and 1: each is sent exactly when it has a strict
      majority. */
  lemma PhaseRValueSymmetric(n: int, votes: seq<Value>)
    requires |votes| <= n
    ensures var v := PhaseRValue(n, Count(votes, Zero), Count(votes, One));
      (v == Zero <==> Majority(n, Count(votes, Zero))) &&
      (v == One <==> Majority(n, Count(votes, One)))
  {
    MajoritiesExclusive(votes, n);
  }

  /** The value a node moves to when a phase-P quorum reaches neither decide
      threshold: the more frequent of 0 and 1 with ties going to 1, or a
      coin flip (`Math.random() > 0.5` gives 0) when no 0 or 1 was seen. */
  function AdvanceValue(zeros: nat, ones: nat, randomAboveHalf: bool): (v: Value)
    ensures v == Zero || v == One
    ensures zeros + ones > 0 ==> (v == Zero <==> zeros > ones)
    ensures zeros + ones > 0 && zeros == ones ==> v == One
    ensures zeros + ones == 0 ==> (v == Zero <==> randomAboveHalf)
  {
    if zeros + ones > 0 then (if zeros > ones then Zero else One)
    else if randomAboveHalf then Zero else One
  }

  /** Delivery of one vote (the `/message` handler), as one atomic step. */
  function Deliver(c: Config, s: NodeState, msg: Message, randomAboveHalf: bool): (st: Step)
    ensures st.accepted <==> !c.isFaulty && !s.killed
    ensures (!st.accepted || msg.phase == Other) ==> st.next == s && st.sent == []
    ensures |st.sent| <= 1
  {
    if c.isFaulty || s.killed then Step(s, [], false)
    else
      match msg.phase
      case R => OnPhaseR(c, s, msg.k, msg.x)
      case P => OnPhaseP(c, s, msg.k, msg.x, randomAboveHalf)
      case Other => Step(s, [], true)
  }

  /** An accepted phase-R vote for round `k`. */
  function OnPhaseR(c: Config, s: NodeState, k: int, x: Value): (st: Step)
    ensures st.next == s.(roundR := ProcessMessage(s.roundR, k, x).0)
    ensures st.accepted && |st.sent| <= 1
  {
    var r := ProcessMessage(s.roundR, k, x);
    var s' := s.(roundR := r.0);
    if AtQuorum(c, r.1) then
      Step(s', [Message(P, k, PhaseRValue(c.N, Count(r.1, Zero), Count(r.1, One)))], true)
    else Step(s', [], true)
  }

  /** An accepted phase-P vote for round `k`. */
  function OnPhaseP(c: Config, s: NodeState, k: int, x: Value, randomAboveHalf: bool): (st: Step)
    ensures st.next.roundR == s.roundR && st.next.killed == s.killed
    ensures st.next.roundP == ProcessMessage(s.roundP, k, x).0
    ensures (st.next.x == s.x && st.next.decided == s.decided) || st.next.x != Undecided
    ensures st.accepted && |st.sent| <= 1
  {
    var r := ProcessMessage(s.roundP, k, x);
    var s' := s.(roundP := r.0);
    if AtQuorum(c, r.1) then PhasePQuorum(c, s', k, Count(r.1, Zero), Count(r.1, One), randomAboveHalf)
    else Step(s', [], true)
  }

  /** A phase-P quorum for round `k` with the given counts: decide 0, decide
      1, or advance to round `k + 1`. */
  function PhasePQuorum(c: Config, s: NodeState, k: int, zeros: nat, ones: nat, randomAboveHalf: bool): (st: Step)
    ensures st.next.roundR == s.roundR && st.next.roundP == s.roundP && st.next.killed == s.killed
    ensures st.next.x == Zero || st.next.x == One
    ensures st.next.decided <==> s.decided || Decides(c, zeros) || Decides(c, ones)
    ensures st.accepted && |st.sent| <= 1
  {
    if Decides(c, zeros) then Step(s.(x := Zero, decided := true), [], true)
    else if Decides(c, ones) then Step(s.(x := One, decided := true), [], true)
    else
      var v := AdvanceValue(zeros, ones, randomAboveHalf);
      Step(s.(x := v, k := k + 1), [Message(R, k + 1, v)], true)
  }

  /** `/start`: a non-faulty node resets its value, round and decided flag
      and broadcasts its round-1 phase-R vote; a faulty node does nothing.
      Both report success. */
  function Start(c: Config, s: NodeState): (st: Step)
    ensures st.accepted
    ensures c.isFaulty ==> st.next == s && st.sent == []
    ensures !c.isFaulty ==>
      && st.next == s.(x := c.initialValue, decided := false, k := 1)
      && st.sent == [Message(R, 1, c.initialValue)]
  {
    if c.isFaulty then Step(s, [], true)
    else
      var s' := s.(decided := false, x := c.initialValue, k := 1);
      Step(s', [Message(R, s'.k, s'.x)], true)
  }

  /** `/stop`: the node is killed; nothing else changes. */
  function Stop(s: NodeState): (s': NodeState)
    ensures s'.killed
    ensures s'.(killed := s.killed) == s
  {
    s.(killed := true)
  }

  /** What `/getState` reports; `None` stands for `null`. */
  datatype Report = Report(x: Option<Value>, k: Option<int>, killed: bool, decided: Option<bool>)

  /** `/getState`: the real fields of a non-faulty node; for a faulty node
      the value, round and decided flag are masked as `null`. */
  function Inspect(c: Config, s: NodeState): (r: Report)
    ensures r.killed == s.killed
    ensures c.isFaulty <==> r.x == None
    ensures c.isFaulty <==> r.k == None
    ensures c.isFaulty <==> r.decided == None
    ensures !c.isFaulty ==> r == Report(Some(s.x), Some(s.k), s.killed, Some(s.decided))
  {
    if c.isFaulty then Report(None, None, s.killed, None)
    else Report(Some(s.x), Some(s.k), s.killed, Some(s.decided))
  }

  // ---------------------------------------------------------------------
  // Properties of one vote delivery
  // ---------------------------------------------------------------------

  /** The ledgers after a vote: an accepted R (P) vote goes through
      `ProcessMessage` on the R (P) ledger; every other ledger is kept. */
  lemma DeliverLedgers(c: Config, s: NodeState, msg: Message, randomAboveHalf: bool)
    ensures var st := Deliver(c, s, msg, randomAboveHalf);
      var live := !c.isFaulty && !s.killed;
      && st.next.roundR == (if live && msg.phase == R then ProcessMessage(s.roundR, msg.k, msg.x).0 else s.roundR)
      && st.next.roundP == (if live && msg.phase == P then ProcessMessage(s.roundP, msg.k, msg.x).0 else s.roundP)
  {
  }

  /** A faulty or killed node rejects every vote and changes nothing; any
      other node reports success. A corollary of `Deliver`'s own contract,
      restated as the guard-and-status property of the handler. */
  lemma RejectedIffFaultyOrKilled(c: Config, s: NodeState, msg: Message, randomAboveHalf: bool)
    ensures var st := Deliver(c, s, msg, randomAboveHalf);
      && (st.accepted <==> !c.isFaulty && !s.killed)
      && (!st.accepted ==> st.next == s && st.sent == [])
  {
  }

  /** A vote whose phase tag is neither R nor P is answered with success and
      ignored. A corollary of `Deliver`'s own contract, specialised to the
      unmatched tag. */
  lemma OtherPhaseIgnored(c: Config, s: NodeState, msg: Message, randomAboveHalf: bool)
    requires msg.phase == Other
    ensures var st := Deliver(c, s, msg, randomAboveHalf);
      st.next == s && st.sent == [] && (st.accepted <==> !c.isFaulty && !s.killed)
  {
  }

  /** An accepted R or P vote is appended to its phase's ledger for its
      round, and the other phase's ledger is left alone: `DeliverLedgers`
      with `ProcessMessage` unfolded into the map update it performs. */
  lemma VoteRecorded(c: Config, s: NodeState, msg: Message, randomAboveHalf: bool)
    requires !c.isFaulty && !s.killed
    ensures var st := Deliver(c, s, msg, randomAboveHalf);
      && (msg.phase == R ==>
            st.next.roundR == s.roundR[msg.k := Entry(s.roundR, msg.k) + [msg.x]] &&
            st.next.roundP == s.roundP)
      && (msg.phase == P ==>
            st.next.roundP == s.roundP[msg.k := Entry(s.roundP, msg.k) + [msg.x]] &&
            st.next.roundR == s.roundR)
  {
    DeliverLedgers(c, s, msg, randomAboveHalf);
  }

  /** Below the quorum only the ledger changes: value, round, decided flag
      and liveness stay, and nothing is broadcast. */
  lemma BelowQuorumOnlyLedger(c: Config, s: NodeState, msg: Message, randomAboveHalf: bool)
    requires msg.phase == R ==> |Entry(s.roundR, msg.k)| + 1 < c.N - c.F
    requires msg.phase == P ==> |Entry(s.roundP, msg.k)| + 1 < c.N - c.F
    ensures var st := Deliver(c, s, msg, randomAboveHalf);
      && st.sent == []
      && st.next.x == s.x && st.next.k == s.k
      && st.next.decided == s.decided && st.next.killed == s.killed
  {
  }

  /** Phase R at quorum: exactly one phase-P vote for the same round is
      broadcast, carrying 0 on a strict majority of 0s, else 1 on a strict
      majority of 1s, else "?"; value, round and decided flag are untouched.
      This fires again on every later vote of that round. */
  lemma PhaseRAtQuorum(c: Config, s: NodeState, msg: Message, randomAboveHalf: bool)
    requires !c.isFaulty && !s.killed && msg.phase == R
    requires |Entry(s.roundR, msg.k)| + 1 >= c.N - c.F
    ensures var st := Deliver(c, s, msg, randomAboveHalf);
      var votes := Entry(s.roundR, msg.k) + [msg.x];
      var zeros, ones := Count(votes, Zero), Count(votes, One);
      && st.accepted
      && st.sent == [Message(P, msg.k, PhaseRValue(c.N, zeros, ones))]
      && (st.sent[0].x == Zero <==> 2 * zeros > c.N)
      && (st.sent[0].x == One <==> 2 * zeros <= c.N && 2 * ones > c.N)
      && st.next == s.(roundR := st.next.roundR)
  {
  }

  /** Phase P at quorum with at least `F + 1` zeros: the node decides 0,
      keeps its round and broadcasts nothing. */
  lemma PhasePDecidesZero(c: Config, s: NodeState, msg: Message, randomAboveHalf: bool)
    requires !c.isFaulty && !s.killed && msg.phase == P
    requires var votes := Entry(s.roundP, msg.k) + [msg.x];
      AtQuorum(c, votes) && Count(votes, Zero) >= c.F + 1
    ensures var st := Deliver(c, s, msg, randomAboveHalf);
      && st.next.x == Zero && st.next.decided && st.next.k == s.k
      && st.sent == [] && st.accepted
  {
  }

  /** Phase P at quorum with fewer than `F + 1` zeros but at least `F + 1`
      ones: the node decides 1, keeps its round and broadcasts nothing. */
  lemma PhasePDecidesOne(c: Config, s: NodeState, msg: Message, randomAboveHalf: bool)
    requires !c.isFaulty && !s.killed && msg.phase == P
    requires var votes := Entry(s.roundP, msg.k) + [msg.x];
      AtQuorum(c, votes) && Count(votes, Zero) < c.F + 1 && Count(votes, One) >= c.F + 1
    ensures var st := Deliver(c, s, msg, randomAboveHalf);
      && st.next.x == One && st.next.decided && st.next.k == s.k
      && st.sent == [] && st.accepted
  {
  }

  /** Phase P at quorum with neither threshold met: the round becomes the
      vote's round plus one, the decided flag is kept, the new value is 0 or
      1 (majority, ties to 1, coin when no 0 or 1 was seen), and exactly one
      phase-R vote for the next round carrying it is broadcast. */
  lemma PhasePAdvances(c: Config, s: NodeState, msg: Message, randomAboveHalf: bool)
    requires !c.isFaulty && !s.killed && msg.phase == P
    requires var votes := Entry(s.roundP, msg.k) + [msg.x];
      AtQuorum(c, votes) && Count(votes, Zero) < c.F + 1 && Count(votes, One) < c.F + 1
    ensures var st := Deliver(c, s, msg, randomAboveHalf);
      var votes := Entry(s.roundP, msg.k) + [msg.x];
      var zeros, ones := Count(votes, Zero), Count(votes, One);
      && st.next.k == msg.k + 1
      && st.next.decided == s.decided
      && (st.next.x == Zero || st.next.x == One)
      && (zeros + ones > 0 ==> (st.next.x == Zero <==> zeros > ones))
      && (zeros + ones == 0 ==> (st.next.x == Zero <==> randomAboveHalf))
      && st.sent == [Message(R, msg.k + 1, st.next.x)]
  {
  }

  /** A broadcast only ever follows an accepted vote, and a vote causes at
      most one broadcast. A corollary of `Deliver`'s own contract. */
  lemma AtMostOneBroadcast(c: Config, s: NodeState, msg: Message, randomAboveHalf: bool)
    ensures var st := Deliver(c, s, msg, randomAboveHalf);
      |st.sent| <= 1 && (st.sent != [] ==> st.accepted)
  {
  }

  /** Ledgers only grow: after a vote every round's list of either phase
      starts with the list it had before. */
  lemma DeliverExtendsLedgers(c: Config, s: NodeState, msg: Message, randomAboveHalf: bool)
    ensures var st := Deliver(c, s, msg, randomAboveHalf);
      Extends(s.roundR, st.next.roundR) && Extends(s.roundP, st.next.roundP)
  {
    DeliverLedgers(c, s, msg, randomAboveHalf);
    ProcessMessageFrame(s.roundR, msg.k, msg.x);
    ProcessMessageFrame(s.roundP, msg.k, msg.x);
  }

  // ---------------------------------------------------------------------
  // The decided invariant
  // ---------------------------------------------------------------------

  /** A decided node holds 0 or 1, never "?". */
  ghost predicate DecidedIsBinary(s: NodeState) {
    s.decided ==> s.x != Undecided
  }

  /** `/start` and `/stop` keep a decided node's value binary. */
  lemma DecidedIsBinaryPreservedByControl(c: Config, s: NodeState)
    requires DecidedIsBinary(s)
    ensures DecidedIsBinary(Start(c, s).next)
    ensures DecidedIsBinary(Stop(s))
  {
  }

  /** Every vote keeps a decided node's value binary. */
  lemma DecidedIsBinaryPreserved(c: Config, s: NodeState, msg: Message, randomAboveHalf: bool)
    requires DecidedIsBinary(s)
    ensures DecidedIsBinary(Deliver(c, s, msg, randomAboveHalf).next)
  {
  }

  // ---------------------------------------------------------------------
  // start, stop and getState
  // ---------------------------------------------------------------------

  /** `/stop` is idempotent, and a stopped node rejects every later vote
      without changing state. */
  lemma StopIdempotentAndFinal(c: Config, s: NodeState, msg: Message, randomAboveHalf: bool)
    ensures Stop(Stop(s)) == Stop(s)
    ensures var st := Deliver(c, Stop(s), msg, randomAboveHalf);
      !st.accepted && st.next == Stop(s) && st.sent == []
  {
  }

  /** `/start` does not look at the liveness flag: a stopped non-faulty node
      is reset and broadcasts, but it stays stopped. */
  lemma StartIgnoresKilled(c: Config, s: NodeState)
    requires !c.isFaulty && s.killed
    ensures Start(c, s).next.killed && Start(c, s).sent != []
  {
  }

  /** A faulty node's report hides value, round and decided flag, whatever
      its state is. */
  lemma FaultyReportMasked(c: Config, s: NodeState, t: NodeState)
    requires c.isFaulty && s.killed == t.killed
    ensures Inspect(c, s) == Inspect(c, t)
  {
  }
}

=== FILE: ledger.dfy ===
/**
 The round ledgers of a node: for each phase, a map from a round number to
 the votes received for that round, in arrival order.
 */
module Ledger {
  import opened Votes

  /** One phase's ledger: round number to the votes received for it. */
  type Rounds = map<int, seq<Value>>

  /** The votes recorded for round `k`; a round never seen has none. */
  function Entry(m: Rounds, k: int): seq<Value> {
    if k in m then m[k] else []
  }

  /** Recording vote `x` for round `k`: the round's list (empty when the
      round is new) gets `x` at its end and is stored back; the function
      returns the new ledger and the round's list after the append. */
  function ProcessMessage(m: Rounds, k: int, x: Value): (r: (Rounds, seq<Value>))
    ensures r.1 == Entry(m, k) + [x]
    ensures k in r.0 && r.0[k] == r.1
  {
    var votes := Entry(m, k) + [x];
    (m[k := votes], votes)
  }

  /** Recording a vote adds round `k` to the ledger if it was new, leaves
      every other round's list as it was, and keeps every list's earlier
      entries in place: the old ledger is extended, never rewritten. */
  lemma ProcessMessageFrame(m: Rounds, k: int, x: Value)
    ensures var r := ProcessMessage(m, k, x);
      && r.0.Keys == m.Keys + {k}
      && |Entry(r.0, k)| == |Entry(m, k)| + 1
      && Entry(r.0, k)[..|Entry(m, k)|] == Entry(m, k)
      && (forall j :: j != k ==> Entry(r.0, j) == Entry(m, j))
      && Extends(m, r.0)
  {
    var r := ProcessMessage(m, k, x);
    forall j ensures Entry(m, j) <= Entry(r.0, j) {
      if j == k {
        assert Entry(r.0, k) == Entry(m, k) + [x];
      }
    }
  }

  /** Ledger `m'` extends ledger `m`: every round's list of `m` is a prefix
      of the same round's list of `m'` (votes are never removed or
      reordered). */
  ghost predicate Extends(m: Rounds, m': Rounds) {
    forall j :: Entry(m, j) <= Entry(m', j)
  }

  /** Extension is transitive, so it holds across any number of appends. */
  lemma ExtendsTransitive(m0: Rounds, m1: Rounds, m2: Rounds)
    requires Extends(m0, m1) && Extends(m1, m2)
    ensures Extends(m0, m2)
  {
    forall j ensures Entry(m0, j) <= Entry(m2, j) {
      assert Entry(m0, j) <= Entry(m1, j);
      assert Entry(m1, j) <= Entry(m2, j);
    }
  }
}

=== FILE: node.dfy ===
/**
 One node of the network as an object: its `nodeState` fields and round
 ledgers are updated in place by the `/message`, `/start` and `/stop`
 handlers, and broadcasts are appended to an outbox.
 */
module NodeServer {
  import opened Votes
  import opened Ledger
  import opened Consensus

  class Node {
    const N: nat
    const F: nat
    const initialValue: Value
    const isFaulty: bool

    var killed: bool
    var x: Value
    var decided: bool
    var k: int
    var roundRMessages: Rounds
    var roundPMessages: Rounds

    /** Every broadcast this node has issued, in order; one entry stands
        for the same vote posted to all `N` nodes. */
    var outbox: seq<Message>

    /** The node's fixed parameters. */
    function Params(): Config
      reads this
    {
      Config(N, F, initialValue, isFaulty)
    }

    /** The node's mutable state as a value. */
    function State(): NodeState
      reads this
    {
      NodeState(killed, x, decided, k, roundRMessages, roundPMessages)
    }

    constructor (N: nat, F: nat, initialValue: Value, isFaulty: bool)
      ensures Params() == Config(N, F, initialValue, isFaulty)
      ensures State() == Init(Params())
      ensures outbox == []
    {
      this.N, this.F := N, F;
      this.initialValue, this.isFaulty := initialValue, isFaulty;
      killed, x, decided, k := false, initialValue, false, 1;
      roundRMessages, roundPMessages := map[], map[];
      outbox := [];
    }

    /** Broadcast of one vote to every node. */
    method SendAll(phase: Phase, round: int, value: Value)
      modifies this`outbox
      ensures outbox == old(outbox) + [Message(phase, round, value)]
    {
      outbox := outbox + [Message(phase, round, value)];
    }

    method SetNodeState(value: Value, isDecided: bool)
      modifies this`x, this`decided
      ensures x == value && decided == isDecided
    {
      x := value;
      decided := isDecided;
    }

    /** The `/message` handler: one vote, processed atomically. */
    method HandleMessage(msg: Message, randomAboveHalf: bool) returns (accepted: bool)
      modifies this
      ensures var st := Deliver(Params(), old(State()), msg, randomAboveHalf);
        && State() == st.next
        && outbox == old(outbox) + st.sent
        && accepted == st.accepted
    {
      if !isFaulty && !killed {
        if msg.phase == R {
          HandlePhaseR(msg.k, msg.x);
        } else if msg.phase == P {
          HandlePhaseP(msg.k, msg.x, randomAboveHalf);
        }
        accepted := true;
      } else {
        accepted := false;
      }
    }

    /** A phase-R vote for round `round`: record it and, at quorum,
        broadcast the phase-P vote for the same round. */
    method HandlePhaseR(round: int, value: Value)
      modifies this
      ensures var st := OnPhaseR(Params(), old(State()), round, value);
        State() == st.next && outbox == old(outbox) + st.sent
    {
      var processed := ProcessMessage(roundRMessages, round, value);
      roundRMessages := processed.0;
      var votes := processed.1;
      if |votes| >= N - F {
        var counts := CountValues(votes);
        var v := Undecided;
        if 2 * counts.zeros > N {
          v := Zero;
        } else if 2 * counts.ones > N {
          v := One;
        }
        SendAll(P, round, v);
      }
    }

    /** A phase-P vote for round `round`: record it and, at quorum, decide
        or move to round `round + 1`. */
    method HandlePhaseP(round: int, value: Value, randomAboveHalf: bool)
      modifies this
      ensures var st := OnPhaseP(Params(), old(State()), round, value, randomAboveHalf);
        State() == st.next && outbox == old(outbox) + st.sent
    {
      var processed := ProcessMessage(roundPMessages, round, value);
      roundPMessages := processed.0;
      var votes := processed.1;
      if |votes| >= N - F {
        var counts := CountValues(votes);
        DecideOrAdvance(round, counts, randomAboveHalf);
      }
    }

    /** A phase-P quorum for round `round` with the given counts. */
    method DecideOrAdvance(round: int, counts: Counts, randomAboveHalf: bool)
      modifies this`x, this`decided, this`k, this`outbox
      ensures var st := PhasePQuorum(Params(), old(State()), round, counts.zeros, counts.ones, randomAboveHalf);
        State() == st.next && outbox == old(outbox) + st.sent
    {
      if counts.zeros >= F + 1 {
        SetNodeState(Zero, true);
      } else if counts.ones >= F + 1 {
        SetNodeState(One, true);
      } else {
        var total := counts.zeros + counts.ones;
        x := if total > 0 then (if counts.zeros > counts.ones then Zero else One)
             else if randomAboveHalf then Zero else One;
        k := round + 1;
        SendAll(R, round + 1, x);
      }
    }

    /** The `/start` handler. */
    method Start()
      modifies this
      ensures var st := Consensus.Start(Params(), old(State()));
        State() == st.next && outbox == old(outbox) + st.sent
    {
      if !isFaulty {
        decided := false;
        x := initialValue;
        k := 1;
        SendAll(R, k, x);
      }
    }

    /** The `/stop` handler. */
    method Stop()
      modifies this`killed
      ensures State() == Consensus.Stop(old(State()))
    {
      killed := true;
    }

    /** The `/getState` handler. */
    method GetState() returns (r: Report)
      ensures r == Inspect(Params(), State())
      ensures r.killed == killed
      ensures isFaulty ==> r.x == None && r.k == None && r.decided == None
    {
      if isFaulty {
        r := Report(None, None, killed, None);
      } else {
        r := Report(Some(x), Some(k), killed, Some(decided));
      }
    }
  }
}

=== FILE: runs.dfy ===
/**
 Sequences of vote deliveries to one node, and what holds across them:
 ledgers only grow, a decided value stays binary, a rejecting node stays
 inert, and a unanimous quorum leads to the expected broadcast or decision.
 */
module Runs {
  import opened Votes
  import opened Ledger
  import opened Consensus

  /** One delivered vote, with the coin the node would flip for it. */
  datatype Delivery = Delivery(msg: Message, randomAboveHalf: bool)

  /** Where a run of deliveries leaves the node and everything it broadcast. */
  datatype Trace = Trace(final: NodeState, sent: seq<Message>)

  /** Delivering `ds` one at a time, in order, starting from `s`. */
  function Run(c: Config, s: NodeState, ds: seq<Delivery>): Trace
    decreases |ds|
  {
    if ds == [] then Trace(s, [])
    else
      var st := Deliver(c, s, ds[0].msg, ds[0].randomAboveHalf);
      var rest := Run(c, st.next, ds[1..]);
      Trace(rest.final, st.sent + rest.sent)
  }

  /** Across any run, each round's ledger of either phase only grows at its
      end: nothing is removed or reordered. */
  lemma {:induction false} RunExtendsLedgers(c: Config, s: NodeState, ds: seq<Delivery>)
    ensures Extends(s.roundR, Run(c, s, ds).final.roundR)
    ensures Extends(s.roundP, Run(c, s, ds).final.roundP)
    decreases |ds|
  {
    if ds != [] {
      var st := Deliver(c, s, ds[0].msg, ds[0].randomAboveHalf);
      DeliverExtendsLedgers(c, s, ds[0].msg, ds[0].randomAboveHalf);
      RunExtendsLedgers(c, st.next, ds[1..]);
      ExtendsTransitive(s.roundR, st.next.roundR, Run(c, s, ds).final.roundR);
      ExtendsTransitive(s.roundP, st.next.roundP, Run(c, s, ds).final.roundP);
    }
  }

  /** Across any run, a decided node holds 0 or 1. */
  lemma {:induction false} RunKeepsDecidedBinary(c: Config, s: NodeState, ds: seq<Delivery>)
    requires DecidedIsBinary(s)
    ensures DecidedIsBinary(Run(c, s, ds).final)
    decreases |ds|
  {
    if ds != [] {
      var st := Deliver(c, s, ds[0].msg, ds[0].randomAboveHalf);
      DecidedIsBinaryPreserved(c, s, ds[0].msg, ds[0].randomAboveHalf);
      RunKeepsDecidedBinary(c, st.next, ds[1..]);
    }
  }

  /** A faulty or stopped node stays exactly as it is and broadcasts nothing,
      whatever votes it is sent. */
  lemma {:induction false} RejectingNodeIsInert(c: Config, s: NodeState, ds: seq<Delivery>)
    requires c.isFaulty || s.killed
    ensures Run(c, s, ds) == Trace(s, [])
    decreases |ds|
  {
    if ds != [] {
      RejectedIffFaultyOrKilled(c, s, ds[0].msg, ds[0].randomAboveHalf);
      RejectingNodeIsInert(c, s, ds[1..]);
    }
  }

  /** A run broadcasts at most once per delivered vote, and once stopped a
      node stays stopped. */
  lemma {:induction false} RunBroadcastBound(c: Config, s: NodeState, ds: seq<Delivery>)
    ensures |Run(c, s, ds).sent| <= |ds|
    ensures s.killed ==> Run(c, s, ds).final.killed
    decreases |ds|
  {
    if ds != [] {
      var st := Deliver(c, s, ds[0].msg, ds[0].randomAboveHalf);
      AtMostOneBroadcast(c, s, ds[0].msg, ds[0].randomAboveHalf);
      RejectedIffFaultyOrKilled(c, s, ds[0].msg, ds[0].randomAboveHalf);
      RunBroadcastBound(c, st.next, ds[1..]);
    }
  }

  /** The phase-R quorum of a round whose votes are all the same bit `b`:
      when the quorum is a strict majority of the network (`2(N - F) > N`),
      the node broadcasts the phase-P vote `b` for that round. */
  lemma UnanimousPhaseR(c: Config, s: NodeState, msg: Message, randomAboveHalf: bool)
    requires !c.isFaulty && !s.killed && msg.phase == R && msg.x != Undecided
    requires forall i :: 0 <= i < |Entry(s.roundR, msg.k)| ==> Entry(s.roundR, msg.k)[i] == msg.x
    requires |Entry(s.roundR, msg.k)| + 1 >= c.N - c.F
    requires 2 * (c.N - c.F) > c.N
    ensures Deliver(c, s, msg, randomAboveHalf).sent == [Message(P, msg.k, msg.x)]
  {
    var votes := Entry(s.roundR, msg.k) + [msg.x];
    var other := if msg.x == Zero then One else Zero;
    CountUniform(votes, msg.x, other);
  }

  /** The phase-P quorum of a round whose votes are all the same bit `b`:
      when the quorum reaches the decide threshold (`N - F >= F + 1`), the
      node decides `b` and broadcasts nothing. */
  lemma UnanimousPhaseP(c: Config, s: NodeState, msg: Message, randomAboveHalf: bool)
    requires !c.isFaulty && !s.killed && msg.phase == P && msg.x != Undecided
    requires forall i :: 0 <= i < |Entry(s.roundP, msg.k)| ==> Entry(s.roundP, msg.k)[i] == msg.x
    requires |Entry(s.roundP, msg.k)| + 1 >= c.N - c.F
    requires c.N - c.F >= c.F + 1
    ensures var st := Deliver(c, s, msg, randomAboveHalf);
      st.next.decided && st.next.x == msg.x && st.next.k == s.k && st.sent == []
  {
    var votes := Entry(s.roundP, msg.k) + [msg.x];
    var other := if msg.x == Zero then One else Zero;
    CountUniform(votes, msg.x, other);
  }

  /** `n` deliveries of the same vote (the coin is never consulted for them). */
  function Repeated(m: Message, n: nat): (ds: seq<Delivery>)
    ensures |ds| == n
  {
    if n == 0 then [] else [Delivery(m, false)] + Repeated(m, n - 1)
  }

  /** `n` copies of one value. */
  function Copies(x: Value, n: nat): (r: seq<Value>)
    ensures |r| == n && forall i :: 0 <= i < n ==> r[i] == x
  {
    if n == 0 then [] else [x] + Copies(x, n - 1)
  }

  /** The ledger a vote of phase `ph` goes to. */
  function LedgerOf(s: NodeState, ph: Phase): Rounds {
    if ph == R then s.roundR else s.roundP
  }

  lemma {:induction false} RepeatedSnoc(m: Message, n: nat)
    ensures Repeated(m, n + 1) == Repeated(m, n) + [Delivery(m, false)]
    decreases n
  {
    if n > 0 {
      RepeatedSnoc(m, n - 1);
    }
  }

  /** Running `a` and then `b` is running `a + b`. */
  lemma {:induction false} RunAppend(c: Config, s: NodeState, a: seq<Delivery>, b: seq<Delivery>)
    ensures var ta := Run(c, s, a);
      var tb := Run(c, ta.final, b);
      Run(c, s, a + b) == Trace(tb.final, ta.sent + tb.sent)
    decreases |a|
  {
    if a == [] {
      assert a + b == b;
    } else {
      assert (a + b)[0] == a[0];
      assert (a + b)[1..] == a[1..] + b;
      var st := Deliver(c, s, a[0].msg, a[0].randomAboveHalf);
      RunAppend(c, st.next, a[1..], b);
      var ta := Run(c, st.next, a[1..]);
      var tb := Run(c, ta.final, b);
      assert st.sent + (ta.sent + tb.sent) == (st.sent + ta.sent) + tb.sent;
    }
  }

  /** One more delivery at the end of a run. */
  lemma RunSnoc(c: Config, s: NodeState, ds: seq<Delivery>, d: Delivery)
    ensures var t := Run(c, s, ds);
      var st := Deliver(c, t.final, d.msg, d.randomAboveHalf);
      Run(c, s, ds + [d]) == Trace(st.next, t.sent + st.sent)
  {
    RunAppend(c, s, ds, [d]);
    var t := Run(c, s, ds);
    assert [d][1..] == [];
    var st := Deliver(c, t.final, d.msg, d.randomAboveHalf);
    assert Run(c, t.final, [d]) == Trace(st.next, st.sent + []);
  }

  /** Fewer identical votes than the quorum only fill the round's list:
      nothing is broadcast and value, round, decided flag and liveness stay. */
  lemma {:induction false} RunBelowQuorum(c: Config, s: NodeState, m: Message, n: nat)
    requires !c.isFaulty && !s.killed && m.phase != Other
    requires |Entry(LedgerOf(s, m.phase), m.k)| + n < c.N - c.F
    ensures var t := Run(c, s, Repeated(m, n));
      && t.sent == []
      && t.final.x == s.x && t.final.k == s.k && t.final.decided == s.decided && !t.final.killed
      && Entry(LedgerOf(t.final, m.phase), m.k) == Entry(LedgerOf(s, m.phase), m.k) + Copies(m.x, n)
      && (m.phase == R ==> t.final.roundP == s.roundP)
      && (m.phase == P ==> t.final.roundR == s.roundR)
    decreases n
  {
    if n > 0 {
      var ds := Repeated(m, n);
      assert ds[0] == Delivery(m, false) && ds[1..] == Repeated(m, n - 1);
      var st := Deliver(c, s, m, false);
      BelowQuorumOnlyLedger(c, s, m, false);
      VoteRecorded(c, s, m, false);
      assert Entry(LedgerOf(st.next, m.phase), m.k) == Entry(LedgerOf(s, m.phase), m.k) + [m.x];
      RunBelowQuorum(c, st.next, m, n - 1);
      assert Copies(m.x, n) == [m.x] + Copies(m.x, n - 1);
      assert Entry(LedgerOf(s, m.phase), m.k) + [m.x] + Copies(m.x, n - 1)
          == Entry(LedgerOf(s, m.phase), m.k) + Copies(m.x, n);
    }
  }

  /** The phase-R half of a unanimous round: a live node with nothing
      recorded in phase R for round `k` receives the quorum of phase-R votes
      `b`. When the quorum is a strict majority of the network, the node
      broadcasts exactly the phase-P vote `b` for round `k` and changes
      nothing but its phase-R ledger. */
  lemma UnanimousPhaseRRun(c: Config, s: NodeState, k: int, b: Value)
    requires !c.isFaulty && !s.killed && b != Undecided
    requires Entry(s.roundR, k) == []
    requires 2 * (c.N - c.F) > c.N
    ensures var t := Run(c, s, Repeated(Message(R, k, b), c.N - c.F));
      t.sent == [Message(P, k, b)] && t.final == s.(roundR := t.final.roundR)
  {
    var q: nat := c.N - c.F;
    var m := Message(R, k, b);
    RepeatedSnoc(m, q - 1);
    var a := Repeated(m, q - 1);
    RunBelowQuorum(c, s, m, q - 1);
    var t := Run(c, s, a);
    assert t.final == s.(roundR := t.final.roundR);
    UnanimousPhaseR(c, t.final, m, false);
    PhaseRAtQuorum(c, t.final, m, false);
    RunSnoc(c, s, a, Delivery(m, false));
  }

  /** The phase-P half of a unanimous round: a live node with nothing
      recorded in phase P for round `k` receives the quorum of phase-P votes
      `b`. When the quorum reaches the decide threshold, the node decides
      `b`, keeps its round and broadcasts nothing. */
  lemma UnanimousPhasePRun(c: Config, s: NodeState, k: int, b: Value)
    requires !c.isFaulty && !s.killed && b != Undecided
    requires Entry(s.roundP, k) == []
    requires c.N - c.F >= c.F + 1
    ensures var t := Run(c, s, Repeated(Message(P, k, b), c.N - c.F));
      t.sent == [] && t.final.decided && t.final.x == b && t.final.k == s.k
  {
    var q: nat := c.N - c.F;
    var m := Message(P, k, b);
    RepeatedSnoc(m, q - 1);
    var a := Repeated(m, q - 1);
    RunBelowQuorum(c, s, m, q - 1);
    var t := Run(c, s, a);
    UnanimousPhaseP(c, t.final, m, false);
    RunSnoc(c, s, a, Delivery(m, false));
  }

  /** A whole unanimous round: a live node with nothing recorded for round
      `k` receives the quorum of phase-R votes `b` and then the quorum of
      phase-P votes `b`. When the quorum is a strict majority of the network
      and reaches the decide threshold, the node broadcasts exactly one
      vote, the phase-P vote `b`, and ends decided on `b` in the same round. */
  lemma UnanimousRound(c: Config, s: NodeState, k: int, b: Value)
    requires !c.isFaulty && !s.killed && b != Undecided
    requires Entry(s.roundR, k) == [] && Entry(s.roundP, k) == []
    requires 2 * (c.N - c.F) > c.N && c.N - c.F >= c.F + 1
    ensures var q := c.N - c.F;
      var t := Run(c, s, Repeated(Message(R, k, b), q) + Repeated(Message(P, k, b), q));
      t.sent == [Message(P, k, b)] && t.final.decided && t.final.x == b && t.final.k == s.k
  {
    var q: nat := c.N - c.F;
    var a, e := Repeated(Message(R, k, b), q), Repeated(Message(P, k, b), q);
    UnanimousPhaseRRun(c, s, k, b);
    var t1 := Run(c, s, a);
    UnanimousPhasePRun(c, t1.final, k, b);
    RunAppend(c, s, a, e);
  }

  /** Four nodes, none faulty, every value 1: a new node that receives the
      four round-1 phase-R votes of 1 and then the four phase-P votes of 1
      broadcasts only the phase-P vote 1 and decides 1 in round 1. */
  lemma FourNodesAllOne()
    ensures var c := Config(4, 0, One, false);
      var t := Run(c, Init(c), Repeated(Message(R, 1, One), 4) + Repeated(Message(P, 1, One), 4));
      t.sent == [Message(P, 1, One)] && t.final.decided && t.final.x == One && t.final.k == 1
  {
    var c := Config(4, 0, One, false);
    UnanimousRound(c, Init(c), 1, One);
  }

  /** Ten nodes of which four are faulty and silent, every value 1: the six
      correct phase-R votes are a quorum and the six phase-P votes reach the
      decide threshold 5, so a new node broadcasts only the phase-P vote 1
      and decides 1 in round 1. */
  lemma TenNodesFourSilent()
    ensures var c := Config(10, 4, One, false);
      var t := Run(c, Init(c), Repeated(Message(R, 1, One), 6) + Repeated(Message(P, 1, One), 6));
      t.sent == [Message(P, 1, One)] && t.final.decided && t.final.x == One && t.final.k == 1
  {
    var c := Config(10, 4, One, false);
    UnanimousRound(c, Init(c), 1, One);
  }

  // ---------------------------------------------------------------------
  // Where the code departs from the textbook protocol
  // ---------------------------------------------------------------------

  /** The round is taken from the vote, not from the node. A new node with
      N = 1 and F = 0 that receives the phase-P votes "?" for rounds 1, 2
      and then 1 again moves to round 2, then 3, then back to 2. */
  lemma RoundCanMoveBack()
    ensures var c := Config(1, 0, One, false);
      var ds := [Delivery(Message(P, 1, Undecided), true),
                 Delivery(Message(P, 2, Undecided), true),
                 Delivery(Message(P, 1, Undecided), true)];
      Run(c, Init(c), ds[..1]).final.k == 2 &&
      Run(c, Init(c), ds[..2]).final.k == 3 &&
      Run(c, Init(c), ds).final.k == 2
  {
    var c := Config(1, 0, One, false);
    var d1, d2 := Delivery(Message(P, 1, Undecided), true), Delivery(Message(P, 2, Undecided), true);
    var ds := [d1, d2, d1];
    var s0 := Init(c);
    CountUniform([Undecided], Undecided, Zero);
    CountUniform([Undecided], Undecided, One);
    CountUniform([Undecided, Undecided], Undecided, Zero);
    CountUniform([Undecided, Undecided], Undecided, One);

    RunSnoc(c, s0, [], d1);
    assert ds[..1] == [] + [d1];
    PhasePAdvances(c, s0, d1.msg, true);
    VoteRecorded(c, s0, d1.msg, true);
    var s1 := Deliver(c, s0, d1.msg, true).next;
    assert s1.k == 2 && Entry(s1.roundP, 1) == [Undecided] && Entry(s1.roundP, 2) == [];

    RunSnoc(c, s0, ds[..1], d2);
    assert ds[..2] == ds[..1] + [d2];
    PhasePAdvances(c, s1, d2.msg, true);
    VoteRecorded(c, s1, d2.msg, true);
    var s2 := Deliver(c, s1, d2.msg, true).next;
    assert s2.k == 3 && Entry(s2.roundP, 1) == [Undecided];

    RunSnoc(c, s0, ds[..2], d1);
    assert ds == ds[..2] + [d1];
    assert Entry(s2.roundP, 1) + [Undecided] == [Undecided, Undecided];
    PhasePAdvances(c, s2, d1.msg, true);
  }

  /** The state of a new node with N = 3, F = 1 and initial value 1 after
      round-1 phase-P votes: its phase-P list for round 1 is `votes`. */
  function FlipState(votes: seq<Value>, decided: bool, x: Value): NodeState {
    NodeState(false, x, decided, 1, map[], map[1 := votes])
  }

  lemma FlipFirst()
    ensures Deliver(Config(3, 1, One, false), Init(Config(3, 1, One, false)), Message(P, 1, One), false).next
         == FlipState([One], false, One)
  {
    var c := Config(3, 1, One, false);
    VoteRecorded(c, Init(c), Message(P, 1, One), false);
    BelowQuorumOnlyLedger(c, Init(c), Message(P, 1, One), false);
    assert Entry(Init(c).roundP, 1) + [One] == [One];
  }

  lemma FlipSecond()
    ensures Deliver(Config(3, 1, One, false), FlipState([One], false, One), Message(P, 1, One), false).next
         == FlipState([One, One], true, One)
  {
    var c, s := Config(3, 1, One, false), FlipState([One], false, One);
    assert Entry(s.roundP, 1) + [One] == [One, One];
    CountUniform([One, One], One, Zero);
    VoteRecorded(c, s, Message(P, 1, One), false);
    PhasePDecidesOne(c, s, Message(P, 1, One), false);
  }

  lemma FlipThird()
    ensures Deliver(Config(3, 1, One, false), FlipState([One, One], true, One), Message(P, 1, Zero), false).next
         == FlipState([One, One, Zero], true, One)
  {
    var c, s := Config(3, 1, One, false), FlipState([One, One], true, One);
    var votes := [One, One, Zero];
    assert Entry(s.roundP, 1) + [Zero] == votes;
    CountIsMultiplicity(votes, Zero);
    CountIsMultiplicity(votes, One);
    assert multiset(votes)[Zero] == 1 && multiset(votes)[One] == 2;
    VoteRecorded(c, s, Message(P, 1, Zero), false);
    PhasePDecidesOne(c, s, Message(P, 1, Zero), false);
  }

  lemma FlipFourth()
    ensures Deliver(Config(3, 1, One, false), FlipState([One, One, Zero], true, One), Message(P, 1, Zero), false).next
         == FlipState([One, One, Zero, Zero], true, Zero)
  {
    var c, s := Config(3, 1, One, false), FlipState([One, One, Zero], true, One);
    var votes := [One, One, Zero, Zero];
    assert Entry(s.roundP, 1) + [Zero] == votes;
    CountIsMultiplicity(votes, Zero);
    assert multiset(votes)[Zero] == 2;
    VoteRecorded(c, s, Message(P, 1, Zero), false);
    PhasePDecidesZero(c, s, Message(P, 1, Zero), false);
  }

  /** The phase-P handler does not look at `decided`, and its check fires
      again on every vote after the quorum. With N = 3 and F = 1 (quorum 2,
      decide threshold 2), a new node that receives the round-1 phase-P
      votes 1, 1, 0, 0 decides 1 on the second vote, stays decided on 1 on
      the third, and is decided on 0 after the fourth. Here the flip comes
      with the fourth vote, beyond N; `DecisionFlipsWithinNVotes` shows one
      that needs no more than N votes. */
  lemma DecidedValueCanChange()
    ensures var c := Config(3, 1, One, false);
      var d1, d0 := Delivery(Message(P, 1, One), false), Delivery(Message(P, 1, Zero), false);
      var t2, t3, t4 := Run(c, Init(c), [d1, d1]), Run(c, Init(c), [d1, d1, d0]), Run(c, Init(c), [d1, d1, d0, d0]);
      && t2.final.decided && t2.final.x == One
      && t3.final.decided && t3.final.x == One
      && t4.final.decided && t4.final.x == Zero
  {
    var c := Config(3, 1, One, false);
    var d1, d0 := Delivery(Message(P, 1, One), false), Delivery(Message(P, 1, Zero), false);
    FlipFirst();
    FlipSecond();
    FlipThird();
    FlipFourth();
    var s1, s2 := FlipState([One], false, One), FlipState([One, One], true, One);
    var s3, s4 := FlipState([One, One, Zero], true, One), FlipState([One, One, Zero, Zero], true, Zero);
    RunSnoc(c, Init(c), [], d1);
    assert Run(c, Init(c), [d1]).final == s1 by { assert [] + [d1] == [d1]; }
    RunSnoc(c, Init(c), [d1], d1);
    assert Run(c, Init(c), [d1, d1]).final == s2 by { assert [d1] + [d1] == [d1, d1]; }
    RunSnoc(c, Init(c), [d1, d1], d0);
    assert Run(c, Init(c), [d1, d1, d0]).final == s3 by { assert [d1, d1] + [d0] == [d1, d1, d0]; }
    RunSnoc(c, Init(c), [d1, d1, d0], d0);
    assert Run(c, Init(c), [d1, d1, d0, d0]).final == s4 by { assert [d1, d1, d0] + [d0] == [d1, d1, d0, d0]; }
  }

  /** One 0 vote into a phase-P list at quorum with at least `F + 1` ones
      and at most `F` zeros after it: the node decides 1 and the vote is
      appended. */
  lemma ZeroVoteKeepsOne(c: Config, s: NodeState, k: int)
    requires !c.isFaulty && !s.killed
    requires |Entry(s.roundP, k)| + 1 >= c.N - c.F
    requires Count(Entry(s.roundP, k), One) >= c.F + 1
    requires Count(Entry(s.roundP, k), Zero) + 1 <= c.F
    ensures var st := Deliver(c, s, Message(P, k, Zero), false);
      && !st.next.killed && st.next.decided && st.next.x == One
      && Entry(st.next.roundP, k) == Entry(s.roundP, k) + [Zero]
      && Count(Entry(st.next.roundP, k), One) == Count(Entry(s.roundP, k), One)
      && Count(Entry(st.next.roundP, k), Zero) == Count(Entry(s.roundP, k), Zero) + 1
  {
    var votes := Entry(s.roundP, k);
    CountAppend(votes, [Zero], Zero);
    CountAppend(votes, [Zero], One);
    PhasePDecidesOne(c, s, Message(P, k, Zero), false);
    VoteRecorded(c, s, Message(P, k, Zero), false);
  }

  /** Once a round's phase-P list is at quorum and holds at least `F + 1`
      ones, every further 0 vote that keeps the zeros at or below `F` leaves
      the node decided on 1, and the votes are appended to the list. */
  lemma {:induction false} RunKeepsDecidingOne(c: Config, s: NodeState, k: int, n: nat)
    requires !c.isFaulty && !s.killed
    requires |Entry(s.roundP, k)| + 1 >= c.N - c.F
    requires Count(Entry(s.roundP, k), One) >= c.F + 1
    requires Count(Entry(s.roundP, k), Zero) + n <= c.F
    ensures var t := Run(c, s, Repeated(Message(P, k, Zero), n));
      && !t.final.killed
      && Entry(t.final.roundP, k) == Entry(s.roundP, k) + Copies(Zero, n)
      && (n > 0 ==> t.final.decided && t.final.x == One)
    decreases n
  {
    if n > 0 {
      var m := Message(P, k, Zero);
      var votes := Entry(s.roundP, k);
      var ds := Repeated(m, n);
      assert ds[0] == Delivery(m, false) && ds[1..] == Repeated(m, n - 1);
      ZeroVoteKeepsOne(c, s, k);
      var st := Deliver(c, s, m, false);
      RunKeepsDecidingOne(c, st.next, k, n - 1);
      assert Copies(Zero, n) == [Zero] + Copies(Zero, n - 1);
      assert votes + [Zero] + Copies(Zero, n - 1) == votes + Copies(Zero, n);
    }
  }

  /** The last step of `DecisionFlipsWithinNVotes`: a 0 vote into a list of
      nine votes with four zeros, at N = 10 and F = 4, decides 0. */
  lemma TenthVoteFlips(c: Config, s: NodeState, list: seq<Value>)
    requires c == Config(10, 4, One, false) && !s.killed
    requires Entry(s.roundP, 1) == list && |list| == 9 && Count(list, Zero) == 4
    ensures var st := Deliver(c, s, Message(P, 1, Zero), false);
      st.next.decided && st.next.x == Zero && |Entry(st.next.roundP, 1)| == 10
  {
    CountAppend(list, [Zero], Zero);
    PhasePDecidesZero(c, s, Message(P, 1, Zero), false);
    VoteRecorded(c, s, Message(P, 1, Zero), false);
  }

  /** The first five votes of `DecisionFlipsWithinNVotes`: five 1s, below
      the quorum 6, only fill the round-1 phase-P list of a new node. */
  lemma FiveOnesRecorded()
    ensures var c := Config(10, 4, One, false);
      var t := Run(c, Init(c), Repeated(Message(P, 1, One), 5));
      && !t.final.killed
      && Entry(t.final.roundP, 1) == Copies(One, 5)
      && Count(Copies(One, 5), One) == 5 && Count(Copies(One, 5), Zero) == 0
  {
    var c := Config(10, 4, One, false);
    RunBelowQuorum(c, Init(c), Message(P, 1, One), 5);
    assert [] + Copies(One, 5) == Copies(One, 5);
    CountUniform(Copies(One, 5), One, Zero);
  }

  /** The first nine votes of `DecisionFlipsWithinNVotes`: five 1s then four
      0s leave a new node with N = 10 and F = 4 live and decided on 1, with
      those nine votes, four of them zeros, in its round-1 phase-P list. */
  lemma NineVotesDecideOne()
    ensures var c := Config(10, 4, One, false);
      var t := Run(c, Init(c), Repeated(Message(P, 1, One), 5) + Repeated(Message(P, 1, Zero), 4));
      && !t.final.killed && t.final.decided && t.final.x == One
      && |Entry(t.final.roundP, 1)| == 9 && Count(Entry(t.final.roundP, 1), Zero) == 4
  {
    var c := Config(10, 4, One, false);
    var ones, zeros := Repeated(Message(P, 1, One), 5), Repeated(Message(P, 1, Zero), 4);
    FiveOnesRecorded();
    var t5 := Run(c, Init(c), ones);
    RunKeepsDecidingOne(c, t5.final, 1, 4);
    RunAppend(c, Init(c), ones, zeros);
    CountUniform(Copies(Zero, 4), Zero, One);
    CountAppend(Copies(One, 5), Copies(Zero, 4), Zero);
  }

  /** A decision on 1 can flip to 0 within one round without the list ever
      exceeding `N`: it takes a list at quorum with `F + 1` ones that later
      gathers `F + 1` zeros, `2F + 2` votes in all (the reverse order does
      not flip, see `ZeroDecisionSticksRun`). With N = 10 and F = 4 (quorum 6, decide threshold 5),
      a new node that receives the round-1 phase-P votes 1, 1, 1, 1, 1 and
      then 0, 0, 0, 0 is decided on 1, and the tenth vote, a 0, leaves it
      decided on 0 with exactly `N` votes in the list. */
  lemma DecisionFlipsWithinNVotes()
    ensures var c := Config(10, 4, One, false);
      var ds := Repeated(Message(P, 1, One), 5) + Repeated(Message(P, 1, Zero), 4);
      var t9 := Run(c, Init(c), ds);
      var t10 := Run(c, Init(c), ds + [Delivery(Message(P, 1, Zero), false)]);
      && t9.final.decided && t9.final.x == One
      && t10.final.decided && t10.final.x == Zero
      && |Entry(t10.final.roundP, 1)| == c.N
  {
    var c := Config(10, 4, One, false);
    var ds := Repeated(Message(P, 1, One), 5) + Repeated(Message(P, 1, Zero), 4);
    NineVotesDecideOne();
    var t9 := Run(c, Init(c), ds);
    TenthVoteFlips(c, t9.final, Entry(t9.final.roundP, 1));
    RunSnoc(c, Init(c), ds, Delivery(Message(P, 1, Zero), false));
  }

  /** 0 is tested before 1: once a round's phase-P list at quorum holds
      `F + 1` zeros, any further phase-P vote of that round, whatever its
      value and the coin, leaves the node decided on 0 and is appended. */
  lemma ZeroDecisionSticks(c: Config, s: NodeState, k: int, v: Value, randomAboveHalf: bool)
    requires !c.isFaulty && !s.killed
    requires |Entry(s.roundP, k)| + 1 >= c.N - c.F
    requires Count(Entry(s.roundP, k), Zero) >= c.F + 1
    ensures var st := Deliver(c, s, Message(P, k, v), randomAboveHalf);
      && st.next.x == Zero && st.next.decided && !st.next.killed
      && Entry(st.next.roundP, k) == Entry(s.roundP, k) + [v]
  {
    CountAppend(Entry(s.roundP, k), [v], Zero);
    PhasePDecidesZero(c, s, Message(P, k, v), randomAboveHalf);
    VoteRecorded(c, s, Message(P, k, v), randomAboveHalf);
  }

  /** Within a round a decision on 0 never flips back: after the node's
      phase-P list for round `k` is at quorum with `F + 1` zeros, every run
      of phase-P votes for round `k` keeps it decided on 0. */
  lemma {:induction false} ZeroDecisionSticksRun(c: Config, s: NodeState, k: int, ds: seq<Delivery>)
    requires !c.isFaulty && !s.killed
    requires |Entry(s.roundP, k)| + 1 >= c.N - c.F
    requires Count(Entry(s.roundP, k), Zero) >= c.F + 1
    requires forall i :: 0 <= i < |ds| ==> ds[i].msg.phase == P && ds[i].msg.k == k
    requires s.decided && s.x == Zero
    ensures var t := Run(c, s, ds);
      t.final.decided && t.final.x == Zero && !t.final.killed
    decreases |ds|
  {
    if ds != [] {
      var d := ds[0];
      ZeroDecisionSticks(c, s, k, d.msg.x, d.randomAboveHalf);
      assert d.msg == Message(P, k, d.msg.x);
      var st := Deliver(c, s, d.msg, d.randomAboveHalf);
      CountAppend(Entry(s.roundP, k), [d.msg.x], Zero);
      ZeroDecisionSticksRun(c, st.next, k, ds[1..]);
    }
  }

  /** The order of the votes matters: with N = 3 and F = 1, the phase-P
      list 0, 0, 1, 1 holds `F + 1` of each value at quorum, as 1, 1, 0, 0
      does in `DecidedValueCanChange`, yet a new node receiving it in this
      order decides 0 on the second vote and stays decided on 0. */
  lemma ZeroFirstNoFlip()
    ensures var c := Config(3, 1, One, false);
      var d0, d1 := Delivery(Message(P, 1, Zero), false), Delivery(Message(P, 1, One), false);
      var t := Run(c, Init(c), [d0, d0, d1, d1]);
      t.final.decided && t.final.x == Zero
  {
    var c := Config(3, 1, One, false);
    var d0, d1 := Delivery(Message(P, 1, Zero), false), Delivery(Message(P, 1, One), false);
    var s0 := Init(c);
    VoteRecorded(c, s0, d0.msg, false);
    BelowQuorumOnlyLedger(c, s0, d0.msg, false);
    var s1 := Deliver(c, s0, d0.msg, false).next;
    assert Entry(s1.roundP, 1) == [Zero] by { assert [] + [Zero] == [Zero]; }
    assert !s1.killed;
    CountUniform([Zero, Zero], Zero, One);
    assert Entry(s1.roundP, 1) + [Zero] == [Zero, Zero];
    PhasePDecidesZero(c, s1, d0.msg, false);
    VoteRecorded(c, s1, d0.msg, false);
    var s2 := Deliver(c, s1, d0.msg, false).next;
    assert Entry(s2.roundP, 1) == [Zero, Zero];
    ZeroDecisionSticksRun(c, s2, 1, [d1, d1]);
    assert [d0, d0, d1, d1][1..] == [d0, d1, d1] && [d0, d1, d1][1..] == [d1, d1];
  }
}

=== FILE: votes.dfy ===
/**
 Votes exchanged by the nodes of a Ben-Or consensus network, and the
 threshold evaluator that counts them.
 */
module Votes {

  /** The value a vote carries. `Undecided` is the "?" sentinel of the
      protocol; any other payload a peer might put into a vote is counted
      exactly like "?" (toward neither 0 nor 1), so it is folded into it. */
  datatype Value = Zero | One | Undecided

  /** The phase tag of a vote. `Other` is any tag that is neither "R" nor "P". */
  datatype Phase = R | P | Other

  /** A vote `{R: phase, k: round, x: value}` as broadcast to every node. */
  datatype Message = Message(phase: Phase, k: int, x: Value)

  /** The two counters that the threshold evaluator returns. */
  datatype Counts = Counts(zeros: nat, ones: nat)

  /** Number of votes in `votes` equal to `v`, scanning from the front. */
  function Count(votes: seq<Value>, v: Value): (n: nat)
    ensures n <= |votes|
  {
    if votes == [] then 0
    else
      var last := |votes| - 1;
      Count(votes[..last], v) + (if votes[last] == v then 1 else 0)
  }

  /** The count agrees with the independent reference: the multiplicity of
      `v` in the multiset of the votes. */
  lemma {:induction false} CountIsMultiplicity(votes: seq<Value>, v: Value)
    ensures Count(votes, v) == multiset(votes)[v]
  {
    if votes != [] {
      var last := |votes| - 1;
      assert votes == votes[..last] + [votes[last]];
      CountIsMultiplicity(votes[..last], v);
    }
  }

  /** The threshold evaluator: one pass over the votes with two
      accumulators; "?" (and anything else) increments neither. */
  method CountValues(votes: seq<Value>) returns (c: Counts)
    ensures c.zeros == Count(votes, Zero) && c.ones == Count(votes, One)
  {
    var zeros, ones := 0, 0;
    for i := 0 to |votes|
      invariant zeros == Count(votes[..i], Zero)
      invariant ones == Count(votes[..i], One)
    {
      assert votes[..i + 1][..i] == votes[..i];
      if votes[i] == Zero {
        zeros := zeros + 1;
      } else if votes[i] == One {
        ones := ones + 1;
      }
    }
    assert votes[..|votes|] == votes;
    c := Counts(zeros, ones);
  }

  /** Counting a concatenation counts each part: the counts of the votes
      received so far and of the votes that follow add up. */
  lemma CountAppend(a: seq<Value>, b: seq<Value>, v: Value)
    ensures Count(a + b, v) == Count(a, v) + Count(b, v)
  {
    CountIsMultiplicity(a + b, v);
    CountIsMultiplicity(a, v);
    CountIsMultiplicity(b, v);
    assert multiset(a + b) == multiset(a) + multiset(b);
  }

  /** Every vote is a 0, a 1 or counted as neither, so the three counts
      add up to the number of votes. */
  lemma {:induction false} CountPartition(votes: seq<Value>)
    ensures Count(votes, Zero) + Count(votes, One) + Count(votes, Undecided) == |votes|
  {
    if votes != [] {
      CountPartition(votes[..|votes| - 1]);
    }
  }

  /** The threshold evaluator never reports more 0s and 1s than there are votes. */
  lemma CountsWithinLength(votes: seq<Value>)
    ensures Count(votes, Zero) + Count(votes, One) <= |votes|
    ensures Count(votes, Zero) + Count(votes, One) == |votes| - Count(votes, Undecided)
  {
    CountPartition(votes);
  }

  /** The strict-majority test `count > N/2`, written without division:
      over the integers `2 * count > N` is the same comparison. */
  predicate Majority(n: int, count: nat) {
    2 * count > n
  }

  /** At most one value can hold a strict majority of `n` among at most `n`
      votes. */
  lemma MajoritiesExclusive(votes: seq<Value>, n: int)
    requires |votes| <= n
    ensures !(Majority(n, Count(votes, Zero)) && Majority(n, Count(votes, One)))
  {
    CountsWithinLength(votes);
  }

  /** A round's list keeps every vote that arrives, with no check on who sent
      it, so it can hold more than `n` votes; then both values can pass the
      strict-majority test. */
  lemma MajoritiesOverlapBeyondN()
    ensures var votes := [Zero, Zero, One, One];
      Majority(2, Count(votes, Zero)) && Majority(2, Count(votes, One))
  {
    var votes := [Zero, Zero, One, One];
    CountIsMultiplicity(votes, Zero);
    CountIsMultiplicity(votes, One);
    assert multiset(votes)[Zero] == 2 && multiset(votes)[One] == 2;
  }

  /** A list whose votes are all `v` counts `v` once per vote and no other
      value at all. */
  lemma {:induction false} CountUniform(votes: seq<Value>, v: Value, w: Value)
    requires forall i :: 0 <= i < |votes| ==> votes[i] == v
    ensures Count(votes, v) == |votes|
    ensures w != v ==> Count(votes, w) == 0
  {
    if votes != [] {
      CountUniform(votes[..|votes| - 1], v, w);
    }
  }
}
